=== FILE: README.md ===
# Carousel, hero slideshow and newsletter form: a Dafny model

This project models the two pieces of real logic in a static marketing and portfolio site.

1. **The landing page's work-card carousel and hero slideshow** (`script.js`).
   - The carousel keeps a start index over a fixed number of cards.
   - The viewport width sets how many cards show per screen: 1 up to 600 px, 2 up to 900 px, and 3 above that.
   - There is one pagination dot per valid start index, and only the dot at the current index is active.
   - "Next" and "previous" move the index by one and then wrap hard at either end; they do not clamp.
   - A dot click jumps to that dot's index. A window resize rebuilds the dots and normalises the index again.
   - The hero slideshow is a counter that cycles modulo the number of slides.
2. **The newsletter sign-up form** (`src/components/Newsletter.jsx`).
   - The email shape test is the regular expression `^[^\s@]+@[^\s@]+\.[^\s@]+$`, written as a predicate on strings. A one-pass scanner is proved to decide it.
   - Around it sit the form's `isError` transitions: submitting blocks the post and raises the error exactly when the test fails, and editing the field always clears the error.

Modules:
- `Wrappers` (`wrappers.dfy`) defines `Option`.
- `Carousel` (`carousel.dfy`) holds the carousel state machine: an immutable `State` record and pure step functions `Next`, `Prev`, `JumpTo`, `Resize` and `Step`/`Run` over events.
- `HeroSlideshow` (`hero.dfy`) holds the slide counter.
- `EmailShape` (`email.dfy`) holds the regular expression as `RegexMatch`, its local@domain characterisation, and the scanner `Test`.
- `Newsletter` (`newsletter.dfy`) holds the form state and its transitions.

The DOM is abstracted away:
- the viewport width and the measured card width (`offsetWidth`) are integer inputs;
- the track translation is an integer: pixels for the carousel, percent for the hero;
- the dot row is a sequence of "active" flags.

Two points of the code that the model keeps:
- The carousel is set up for any non-zero number of cards, a single card included (script.js:42).
- A resize rebuilds the dots and then runs `updateCarousel`, so the index is normalised at once (script.js:145-146).

The carousel is modelled twice. `Update`, `Next`, `Prev`, `JumpTo`, `Resize`, `Step` and `Run` use the corrected normalisation described under Findings. `UpdateAsWritten`, `StepAsWritten` and `RunAsWritten` use the page's boundary checks exactly as written, with their own invariant `PageValid`. `StepAgrees` proves the two machines take the same step from every valid state, except "previous" at index 0 when maxIndex is -1.

## Model

| member | source | states |
|---|---|---|
| Carousel.ItemsPerScreen | script.js:48-52 | cards per screen is always 1..3: 1 exactly for width <= 600, 2 exactly for 600 < width <= 900, 3 exactly above 900 |
| Carousel.ItemsPerScreenMonotone | script.js:48-52 | a wider viewport never shows fewer cards |
| Carousel.DotCount | script.js:68 | the number of dots the loop creates is max(0, total - perScreen + 1), and k < count holds exactly for the valid start indices 0 <= k <= total - perScreen |
| Carousel.NormalizeAsWritten | script.js:97-98 | the source's two boundary checks: the result is in [0, maxIndex] when maxIndex >= 0, and it is negative only when it equals maxIndex |
| Carousel.AsWrittenPrevLeavesRange | script.js:97-98 | when there is one card too few to fill a screen (maxIndex = -1), stepping back from 0 with the source's checks gives index -1, which is not a valid start index |
| Carousel.AsWrittenTwoCardsDesktop | script.js:97-98 | concrete instance: two cards on a 1000 px viewport, stepping back from 0 gives -1 |
| Carousel.Normalize | script.js:96-98 | corrected normalisation: the result is always in [0, max(0, maxIndex)], an in-range index is unchanged, past the end gives 0, and below 0 gives maxIndex whenever maxIndex >= 0 |
| Carousel.NormalizeAgreesWithSource | script.js:97-98 | the corrected and as-written normalisations agree exactly when maxIndex >= 0 or the index is above maxIndex |
| Carousel.NormalizeIdempotent | script.js:97-98 | normalising an already normalised index changes nothing |
| Carousel.UpdateDots | script.js:81-90 | the dot row keeps its length, and dot k is active iff k equals the current index |
| Carousel.ActiveDotUnique | script.js:81-90 | after marking, at most one dot is active, and some dot is active iff the index is below the dot count |
| Carousel.CreateDots | script.js:54-79 | rebuilding creates exactly DotCount dots for the current width, marks the current index, and changes nothing else |
| Carousel.Update | script.js:92-112 | updateCarousel (with the corrected normalisation) leaves the index in [0, max(0, maxIndex)], keeps an in-range index, wraps a too-large one to 0 and a negative one to maxIndex when maxIndex >= 0, sets the offset to (cardWidth + 20) * index, re-marks the dots, and restores the full invariant when the dot row fits the width |
| Carousel.Next | script.js:114-117 | from a valid state: index + 1 below maxIndex, 0 from maxIndex (wrap, not clamp), the invariant kept, the offset matching the index |
| Carousel.Prev | script.js:119-122 | from a valid state: index - 1 above 0, the last valid start index from 0 (wrap, not clamp), the invariant kept |
| Carousel.JumpTo | script.js:72-76 | clicking an existing dot i sets the index to i, and normalisation leaves it at i |
| Carousel.Resize | script.js:144-147 | after a resize the state is valid for the new width, an index still in range is kept, an index past the new maximum becomes 0, and the offset matches the index |
| Carousel.Init | script.js:42-44 | no controller without cards; otherwise the index starts at 0 with a valid dot row and no translation |
| Carousel.Step | script.js:133-147 | every click, resize or auto-advance tick keeps the carousel invariant |
| Carousel.Run | script.js:133-147 | any sequence of events keeps the carousel invariant |
| Carousel.ReachableValid | script.js:92-98 | in the corrected model, every state reachable from page load has a valid, non-negative index and a matching dot row |
| Carousel.UpdateAsWritten | script.js:92-112 | updateCarousel as written: index in [0, maxIndex] when maxIndex >= 0, an in-range index kept, past the end gives 0, at or below a negative maxIndex gives maxIndex, the offset matches the index, the dots re-marked, and PageValid restored for any index >= -1 |
| Carousel.StepAsWritten | script.js:133-147 | every click, resize or auto-advance tick on the page as written keeps PageValid |
| Carousel.RunAsWritten | script.js:133-147 | any sequence of events on the page as written keeps PageValid |
| Carousel.ReachablePageValid | script.js:92-98 | every state the page as written reaches from load keeps PageValid: the index is a valid start index, or 0, or -1 when maxIndex is -1 |
| Carousel.PagePrevReachesMinusOne | script.js:119-122 | two cards at 1000 px: one "previous" click from load gives index -1 on the page as written, and 0 in the corrected model |
| Carousel.PagePrevThenNarrowResize | script.js:144-147 | two cards at 1000 px, "previous", then a resize to 500 px: the page lands on index 1, the corrected model on 0 |
| Carousel.PageValid | script.js:92-98 | the invariant of the page as written: cards exist, one dot per valid start index, the index a valid start index (or 0), or -1 when maxIndex is -1, and only its dot active; it bounds the index to [-1, total) |
| Carousel.Valid | script.js:92-98 | the invariant of the corrected model: cards exist, one dot per valid start index, the index in [0, max(0, maxIndex)], and only its dot active; it bounds the index to [0, total) |
| Carousel.MinusOneUntilForward | script.js:114-147 | on the page as written, an index of -1 survives further "previous" clicks, returns to 0 on the next forward click or auto-advance tick, and on a resize stays -1 while maxIndex is -1, becomes 0 when maxIndex drops below -1, and wraps to the new last start index when maxIndex becomes non-negative |
| Carousel.PagePrevThenTick | script.js:124-141 | two cards at 1000 px: "previous" then the auto-advance tick brings the page back to index 0 |
| Carousel.StepAgrees | script.js:97-98 | from a valid state, the page as written and the corrected model take the same step, except "previous" at index 0 when maxIndex is -1 |
| Carousel.NextFromZero | script.js:114-117 | n moves forward from 0 land on index n while n <= maxIndex |
| Carousel.NextCycles | script.js:94-97 | maxIndex + 1 moves forward from 0 come back to 0 |
| Carousel.FewCardsStayAtZero | script.js:94-98 | with fewer cards than fit on a screen there are no dots and every move leaves the index at 0; a forward move does so in the source too |
| Carousel.SevenCardsExample | script.js:94-98 | seven cards on a wide screen give five dots, and moving next from index 4 wraps to 0 |
| HeroSlideshow.Init | script.js:158-160 | no slideshow without slides; otherwise it starts on slide 0 |
| HeroSlideshow.Step | script.js:162-166 | from a slide in range, the next slide is (index + 1) mod total and stays in range |
| HeroSlideshow.Translation | script.js:167-168 | the translation is a multiple of 100 percent, at most 100 * (total - 1), and it encodes the slide index |
| HeroSlideshow.Steps | script.js:162-171 | any number of ticks keeps the index in [0, total) |
| HeroSlideshow.StepsFromStart | script.js:162-166 | after n ticks from slide 0 the slide shown is n mod total |
| HeroSlideshow.Periodic | script.js:162-166 | total more ticks show the same slide again |
| EmailShape.RegexMatch | src/components/Newsletter.jsx:11 | the definition of emailRegex: s splits at an '@' and a later '.' into three non-empty runs of [^\s@]; a match has at least 5 characters and contains both '@' and '.' |
| EmailShape.MatchIffLocalAtDomain | src/components/Newsletter.jsx:11 | the regular expression matches s iff s = L ++ "@" ++ D, where L is non-empty without '@' or whitespace, and D has no '@' or whitespace and a '.' that is neither its first nor its last character |
| EmailShape.AcceptedShape | src/components/Newsletter.jsx:11 | an accepted string contains exactly one '@' and no whitespace |
| EmailShape.TwoBadRejected | src/components/Newsletter.jsx:11 | a string with two characters outside [^\s@] (two '@', or an '@' and whitespace) is rejected |
| EmailShape.BadRejected | src/components/Newsletter.jsx:11 | whitespace anywhere, or an '@' first, makes the string rejected |
| EmailShape.Test | src/components/Newsletter.jsx:11-12 | the one-pass scanner returns true exactly when the regular expression matches |
| EmailShape.AcceptsFooAtBarDotCom | src/components/Newsletter.jsx:11 | "foo@bar.com" is accepted |
| EmailShape.RejectsFooAtBar | src/components/Newsletter.jsx:11 | "foo@bar" is rejected: there is no dot in the domain |
| EmailShape.RejectsDotFirstDomain | src/components/Newsletter.jsx:11 | "a@.com" is rejected: the dot is the domain's first character |
| Newsletter.Submit | src/components/Newsletter.jsx:8-19 | the post is blocked iff the address is rejected, isError ends up equal to "blocked", and the text is untouched |
| Newsletter.Edit | src/components/Newsletter.jsx:109-112 | editing stores the new text and clears isError, whatever it was |
| Newsletter.ErrorMessage | src/components/Newsletter.jsx:115-117 | the error paragraph is rendered iff isError is set, with the fixed message |
| Newsletter.SubmitBlocksIffNotLocalAtDomain | src/components/Newsletter.jsx:11-18 | submission is blocked, and the error shown, exactly when the text is not of local@domain shape |
| Newsletter.SubmitIdempotent | src/components/Newsletter.jsx:12-18 | submitting twice without editing gives the same state and outcome as once |
| Newsletter.EditHidesError | src/components/Newsletter.jsx:109-117 | after an edit the error message is not rendered |
| Newsletter.Apply | src/components/Newsletter.jsx:98-112 | after any submit or edit, the error flag is set only for a rejected address |
| Newsletter.Replay | src/components/Newsletter.jsx:5-19 | any action sequence keeps "error only for a rejected address", and after a final submit the error is set iff the address is rejected |
| Newsletter.ErrorOnlyForRejected | src/components/Newsletter.jsx:12-18 | from mount, whatever the user does, the error message is shown only for a rejected address |
| Newsletter.SubmitExamples | src/components/Newsletter.jsx:11-18 | "foo@bar" and "a@.com" block submission; "foo@bar.com" goes through and clears the error |

## Left out

- Section reveal and nav-link highlighting (script.js:2-33) are left out. They are IntersectionObserver wiring with no state worth stating.
- The auto-advance timers are left out (script.js:124-131 and script.js:171). This covers `setInterval`/`clearInterval`, the 4000 ms period, and restarting the timer after a click. A timer tick is the abstract event `AutoAdvance`, which moves to the next card. Restarting the timer does not change the index, so it is not modelled.
- DOM reads and writes are left out. `offsetWidth` is the `cardWidth` input. The `translateX(...)` style strings become integer offsets.
- The unused `slidesNeeded` computation in `createDots` (script.js:57) is left out. Its value is never read.
- The code reads `window.innerWidth` afresh on every call of `getItemsPerScreen` (script.js:49-50, 56, 68, 93). A click or tick handled after the width has changed, but before the resize event fires, normalises against the new width while the dot row still matches the old one. The model changes the width only through `Resize`, so it does not cover that window. Clicks on a dot that no longer exists cannot happen in the page, and `Step` ignores them.
- The form's native POST to the external address (src/components/Newsletter.jsx:94-98) is network I/O. It is left out. `Submit` only says whether the post is blocked.
- The browser's own `type="email" required` validation (src/components/Newsletter.jsx:103-106) is left out. That logic belongs to the browser.
- framer-motion animations, markup and styling are left out. That includes the red/grey border class, which is presentation.
- EmailShape.IsSpace: the list of whitespace code points is the ECMAScript WhiteSpace and LineTerminator set. The engine's Unicode tables are not modelled. The general lemmas use only that '@' and '.' are not whitespace; the example lemmas also use that ASCII letters are not.
- EmailShape.RegexMatch: this works on Unicode scalar values, while the browser matches against UTF-16 code units. Acceptance is the same either way: no character the class excludes is a surrogate, and `+` accepts any number of units.
- Carousel.Next, Carousel.Prev, Carousel.JumpTo, Carousel.Resize, Carousel.Update, Carousel.Step, Carousel.Run, Carousel.ReachableValid: these use the corrected `Normalize` (see Findings). They agree with the source except when the index is at or below a negative maxIndex. There the source gives that negative maxIndex and the model gives 0. `NormalizeAgreesWithSource` pins this down. From a valid state, the only step that reaches this case is "previous" at index 0 with maxIndex -1 (`StepAgrees`). The page as written is modelled separately by `StepAsWritten` and `RunAsWritten`.

## Findings

| source | as written | input that shows it | evidently intended | confidence | as-written member | corrected member |
|---|---|---|---|---|---|---|
| script.js:97-98 | `if (currentIndex < 0) currentIndex = maxIndex` runs even when maxIndex is negative | Two cards on a viewport wider than 900 px, or one card at 601-900 px, gives maxIndex = -1. Pressing "previous" at index 0 leaves currentIndex = -1. The transform string the code builds is not valid CSS, so the browser keeps the previous transform, and there are no dots to mark. So there is no immediate visible effect. The -1 lasts until the next forward move: further "previous" clicks keep it, and the next "next" click or the auto-advance tick, at most 4 s after the click that restarted the timer, returns it to 0. If the viewport is resized to 600 px or less before then, the -1 wraps to the last start index 1, where the corrected model keeps 0. | Wrapping below 0 should land on a valid start index, or on 0 when all the cards fit on one screen | not executed; high (follows from the two statements alone) | Carousel.NormalizeAsWritten (shown by Carousel.AsWrittenPrevLeavesRange, Carousel.AsWrittenTwoCardsDesktop and, from page load, Carousel.PagePrevReachesMinusOne, Carousel.PagePrevThenNarrowResize, Carousel.PagePrevThenTick and Carousel.MinusOneUntilForward) | Carousel.Normalize (its contract gives 0 <= index <= max(0, maxIndex); Carousel.ReachableValid carries this through every event) |

=== FILE: carousel.dfy ===
/**
 * The work-card carousel of the landing page: an integer start index over a
 * fixed number of cards, a viewport-dependent number of cards per screen,
 * one pagination dot per valid start index, and a hard wrap (not a clamp)
 * when the index steps past either end.
 *
 * The DOM is abstracted away: the viewport width and the measured card width
 * are integer inputs, the track translation is an integer pixel offset, and
 * the dots are a sequence of "active" flags.
 */
module Carousel {
  import opened Wrappers

  /** Pixel gap between two cards, added to the measured card width. */
  const Gap: int := 20

  /** Viewport breakpoints: at most Narrow shows one card, at most Medium two, else three. */
  const Narrow: int := 600
  const Medium: int := 900

  /** Number of cards visible at once for a viewport width (getItemsPerScreen). */
  function ItemsPerScreen(width: int): (n: int)
    ensures 1 <= n <= 3
    ensures n == 1 <==> width <= Narrow
    ensures n == 2 <==> Narrow < width <= Medium
    ensures n == 3 <==> Medium < width
  {
    if width <= Narrow then 1
    else if width <= Medium then 2
    else 3
  }

  /** Wider viewports never show fewer cards. */
  lemma ItemsPerScreenMonotone(w1: int, w2: int)
    requires w1 <= w2
    ensures ItemsPerScreen(w1) <= ItemsPerScreen(w2)
  {
  }

  function Max0(x: int): int { if x < 0 then 0 else x }

  /** k is a start index at which a full screen of cards still fits. */
  predicate ValidStart(total: int, perScreen: int, k: int) {
    0 <= k <= total - perScreen
  }

  /** Number of pagination dots created by createDots: one per valid start index. */
  function DotCount(total: int, perScreen: int): (n: nat)
    ensures forall k :: 0 <= k < n <==> ValidStart(total, perScreen, k)
    ensures n == Max0(total - perScreen + 1)
  {
    if total - (perScreen - 1) > 0 then total - (perScreen - 1) else 0
  }

  /**
   * The boundary checks of updateCarousel exactly as the page script writes
   * them: past the end wraps to 0, then below 0 wraps to maxIndex, even when
   * maxIndex itself is negative.
   */
  function NormalizeAsWritten(index: int, maxIndex: int): (r: int)
    ensures maxIndex >= 0 ==> 0 <= r <= maxIndex
    ensures r < 0 ==> r == maxIndex && index <= maxIndex
  {
    var i := if index > maxIndex then 0 else index;
    if i < 0 then maxIndex else i
  }

  /**
   * With exactly one card too few to fill a screen (maxIndex == -1), stepping
   * back from index 0 leaves the as-written index at -1, outside every valid
   * start index.
   */
  lemma AsWrittenPrevLeavesRange(total: nat, width: int)
    requires total > 0 && total == ItemsPerScreen(width) - 1
    ensures NormalizeAsWritten(0 - 1, total - ItemsPerScreen(width)) == -1
    ensures !ValidStart(total, ItemsPerScreen(width), NormalizeAsWritten(0 - 1, total - ItemsPerScreen(width)))
  {
  }

  /** A concrete instance: two cards on a viewport wider than 900 pixels. */
  lemma AsWrittenTwoCardsDesktop()
    ensures NormalizeAsWritten(0 - 1, 2 - ItemsPerScreen(1000)) == -1
  {
    AsWrittenPrevLeavesRange(2, 1000);
  }

  /**
   * The normalisation the state machine uses: the same hard wrap, except that
   * wrapping below 0 never produces a negative index (it lands on the last
   * valid start index, or on 0 when the cards all fit on one screen).
   */
  function Normalize(index: int, maxIndex: int): (r: int)
    ensures 0 <= r <= Max0(maxIndex)
    ensures 0 <= index <= maxIndex ==> r == index
    ensures index > maxIndex ==> r == 0
    ensures index < 0 && maxIndex >= 0 ==> r == maxIndex
  {
    var i := if index > maxIndex then 0 else index;
    if i < 0 then Max0(maxIndex) else i
  }

  /**
   * The correction changes nothing except when the index is at or below a
   * negative maxIndex, where the source yields that negative maxIndex.
   */
  lemma NormalizeAgreesWithSource(index: int, maxIndex: int)
    ensures Normalize(index, maxIndex) == NormalizeAsWritten(index, maxIndex)
            <==> maxIndex >= 0 || index > maxIndex
  {
  }

  /** Normalising twice is normalising once. */
  lemma NormalizeIdempotent(index: int, maxIndex: int)
    ensures Normalize(Normalize(index, maxIndex), maxIndex) == Normalize(index, maxIndex)
  {
  }

  /** Dot k is marked active exactly when k is the current index. */
  predicate DotsMatch(dots: seq<bool>, index: int) {
    forall k :: 0 <= k < |dots| ==> (dots[k] <==> k == index)
  }

  /** updateDots: re-mark every existing dot against the index. */
  function UpdateDots(dots: seq<bool>, index: int): (r: seq<bool>)
    ensures |r| == |dots|
    ensures DotsMatch(r, index)
  {
    seq(|dots|, k => k == index)
  }

  /** In a matching dot row at most one dot is active, and one is iff the index has a dot. */
  lemma {:induction false} ActiveDotUnique(dots: seq<bool>, index: int)
    requires DotsMatch(dots, index)
    ensures forall j, k :: 0 <= j < |dots| && 0 <= k < |dots| && dots[j] && dots[k] ==> j == k
    ensures (exists k :: 0 <= k < |dots| && dots[k]) <==> 0 <= index < |dots|
  {
    if 0 <= index < |dots| {
      assert dots[index];
    }
  }

  /**
   * The carousel controller's state: the card count, the viewport width the
   * dots were last built for, the start index, the dot row and the last
   * pixel offset the code computes for the track (moveAmount). The browser
   * applies the translation only when this offset is non-negative; a
   * negative one yields a transform string it rejects.
   */
  datatype State = State(total: nat, width: int, index: int, dots: seq<bool>, offset: int)

  function PerScreen(s: State): int { ItemsPerScreen(s.width) }

  function MaxIndex(s: State): int { s.total - PerScreen(s) }

  /**
   * The invariant every settled state keeps: there are cards, the dot row
   * has one dot per valid start index for the current width, the index is a
   * valid start index (or 0 when none exists) and only its dot is active.
   */
  predicate Valid(s: State): (b: bool)
    ensures b ==> 0 <= s.index < s.total
  {
    && s.total > 0
    && |s.dots| == DotCount(s.total, PerScreen(s))
    && 0 <= s.index <= Max0(MaxIndex(s))
    && DotsMatch(s.dots, s.index)
  }

  /** createDots: rebuild the dot row for the current width, marking the current index. */
  function CreateDots(s: State): (r: State)
    ensures |r.dots| == DotCount(s.total, PerScreen(s))
    ensures DotsMatch(r.dots, s.index)
    ensures r == s.(dots := r.dots)
  {
    s.(dots := seq(DotCount(s.total, PerScreen(s)), k => k == s.index))
  }

  /** updateCarousel: normalise the index, translate the track and re-mark the dots. */
  function Update(s: State, cardWidth: nat): (r: State)
    ensures r.total == s.total && r.width == s.width && |r.dots| == |s.dots|
    ensures 0 <= r.index <= Max0(MaxIndex(s))
    ensures 0 <= s.index <= MaxIndex(s) ==> r.index == s.index
    ensures s.index > MaxIndex(s) ==> r.index == 0
    ensures s.index < 0 && MaxIndex(s) >= 0 ==> r.index == MaxIndex(s)
    ensures r.offset == (cardWidth + Gap) * r.index
    ensures DotsMatch(r.dots, r.index)
    ensures s.total > 0 && |s.dots| == DotCount(s.total, PerScreen(s)) ==> Valid(r)
  {
    var i := Normalize(s.index, MaxIndex(s));
    s.(index := i, offset := (cardWidth + Gap) * i, dots := UpdateDots(s.dots, i))
  }

  /** moveNext: one card forward, wrapping from the last start index to the first. */
  function Next(s: State, cardWidth: nat): (r: State)
    ensures Valid(s) ==> Valid(r)
    ensures Valid(s) && s.index < MaxIndex(s) ==> r.index == s.index + 1
    ensures Valid(s) && s.index >= MaxIndex(s) ==> r.index == 0
    ensures r.offset == (cardWidth + Gap) * r.index
  {
    Update(s.(index := s.index + 1), cardWidth)
  }

  /** movePrev: one card back, wrapping from the first start index to the last. */
  function Prev(s: State, cardWidth: nat): (r: State)
    ensures Valid(s) ==> Valid(r)
    ensures Valid(s) && s.index > 0 ==> r.index == s.index - 1
    ensures Valid(s) && s.index == 0 ==> r.index == Max0(MaxIndex(s))
    ensures r.offset == (cardWidth + Gap) * r.index
  {
    Update(s.(index := s.index - 1), cardWidth)
  }

  /** A click on dot i: jump straight to start index i. */
  function JumpTo(s: State, i: nat, cardWidth: nat): (r: State)
    ensures Valid(s) && i < |s.dots| ==> Valid(r) && r.index == i
    ensures r.offset == (cardWidth + Gap) * r.index
  {
    Update(s.(index := i), cardWidth)
  }

  /**
   * A window resize: take the new width, rebuild the dots, then normalise.
   * An index past the new last start index wraps to 0 rather than clamping.
   */
  function Resize(s: State, width: int, cardWidth: nat): (r: State)
    ensures s.total > 0 ==> Valid(r)
    ensures r.width == width && r.total == s.total
    ensures 0 <= s.index <= s.total - ItemsPerScreen(width) ==> r.index == s.index
    ensures s.index > s.total - ItemsPerScreen(width) ==> r.index == 0
    ensures r.offset == (cardWidth + Gap) * r.index
  {
    Update(CreateDots(s.(width := width)), cardWidth)
  }

  /**
   * Page load: without cards the controller is never set up; otherwise the
   * index starts at 0 and the dots are built, with no translation applied yet.
   */
  function Init(total: nat, width: int): (r: Option<State>)
    ensures r.None? <==> total == 0
    ensures r.Some? ==> Valid(r.value) && r.value.index == 0 && r.value.offset == 0
    ensures r.Some? ==> r.value.total == total && r.value.width == width
  {
    if total == 0 then None
    else Some(CreateDots(State(total, width, 0, [], 0)))
  }

  /**
   * What can happen to the carousel. The auto-advance timer fires a move to
   * the next card; its 4-second period and its restart after a click have no
   * effect on the index and are not modelled.
   */
  datatype Event = NextClick | PrevClick | DotClick(dot: nat) | WindowResize(newWidth: int) | AutoAdvance

  /** An event together with the card width measured while handling it. */
  datatype Input = Input(event: Event, cardWidth: nat)

  /** Handle one event. Only existing dots can be clicked. */
  function Step(s: State, input: Input): (r: State)
    ensures Valid(s) ==> Valid(r)
    ensures r.total == s.total
  {
    match input.event
    case NextClick => Next(s, input.cardWidth)
    case AutoAdvance => Next(s, input.cardWidth)
    case PrevClick => Prev(s, input.cardWidth)
    case DotClick(i) => if i < |s.dots| then JumpTo(s, i, input.cardWidth) else s
    case WindowResize(w) => Resize(s, w, input.cardWidth)
  }

  /** Handle a sequence of events in order. */
  function Run(s: State, inputs: seq<Input>): (r: State)
    ensures Valid(s) ==> Valid(r)
    ensures r.total == s.total
    decreases |inputs|
  {
    if |inputs| == 0 then s else Run(Step(s, inputs[0]), inputs[1..])
  }

  /** Every state reachable from page load keeps the carousel invariant (corrected model). */
  lemma ReachableValid(total: nat, width: int, inputs: seq<Input>)
    requires total > 0
    ensures Valid(Run(Init(total, width).value, inputs))
    ensures 0 <= Run(Init(total, width).value, inputs).index
  {
  }

  /**
   * The invariant the page as written keeps: Valid, except that the index
   * may also sit at -1 when maxIndex is -1 (one card too few for a screen).
   */
  predicate PageValid(s: State): (b: bool)
    ensures b ==> -1 <= s.index < s.total
  {
    && s.total > 0
    && |s.dots| == DotCount(s.total, PerScreen(s))
    && (0 <= s.index <= Max0(MaxIndex(s)) || (MaxIndex(s) == -1 && s.index == -1))
    && DotsMatch(s.dots, s.index)
  }

  /** updateCarousel exactly as written, with the source's boundary checks. */
  function UpdateAsWritten(s: State, cardWidth: nat): (r: State)
    ensures r.total == s.total && r.width == s.width && |r.dots| == |s.dots|
    ensures MaxIndex(s) >= 0 ==> 0 <= r.index <= MaxIndex(s)
    ensures 0 <= s.index <= MaxIndex(s) ==> r.index == s.index
    ensures s.index > MaxIndex(s) ==> r.index == 0
    ensures s.index < 0 && s.index <= MaxIndex(s) ==> r.index == MaxIndex(s)
    ensures r.offset == (cardWidth + Gap) * r.index
    ensures DotsMatch(r.dots, r.index)
    ensures s.total > 0 && |s.dots| == DotCount(s.total, PerScreen(s)) && s.index >= -1 ==> PageValid(r)
  {
    var i := NormalizeAsWritten(s.index, MaxIndex(s));
    s.(index := i, offset := (cardWidth + Gap) * i, dots := UpdateDots(s.dots, i))
  }

  /**
   * One event on the page as written: moveNext, movePrev, a dot click and a
   * resize, each followed by the source's own updateCarousel.
   */
  function StepAsWritten(s: State, input: Input): (r: State)
    ensures PageValid(s) ==> PageValid(r)
    ensures r.total == s.total
  {
    var cw := input.cardWidth;
    match input.event
    case NextClick => UpdateAsWritten(s.(index := s.index + 1), cw)
    case AutoAdvance => UpdateAsWritten(s.(index := s.index + 1), cw)
    case PrevClick => UpdateAsWritten(s.(index := s.index - 1), cw)
    case DotClick(i) => if i < |s.dots| then UpdateAsWritten(s.(index := i), cw) else s
    case WindowResize(w) => UpdateAsWritten(CreateDots(s.(width := w)), cw)
  }

  /** A sequence of events on the page as written. */
  function RunAsWritten(s: State, inputs: seq<Input>): (r: State)
    ensures PageValid(s) ==> PageValid(r)
    ensures r.total == s.total
    decreases |inputs|
  {
    if |inputs| == 0 then s else RunAsWritten(StepAsWritten(s, inputs[0]), inputs[1..])
  }

  /** Every state the page as written reaches from load keeps PageValid, so the index is at least -1. */
  lemma ReachablePageValid(total: nat, width: int, inputs: seq<Input>)
    requires total > 0
    ensures PageValid(RunAsWritten(Init(total, width).value, inputs))
    ensures -1 <= RunAsWritten(Init(total, width).value, inputs).index
  {
  }

  /**
   * Two cards on a 1000 px viewport: one "previous" click leaves the page's
   * index at -1, while the corrected model stays at 0.
   */
  lemma PagePrevReachesMinusOne(cardWidth: nat)
    ensures StepAsWritten(Init(2, 1000).value, Input(PrevClick, cardWidth)).index == -1
    ensures Step(Init(2, 1000).value, Input(PrevClick, cardWidth)).index == 0
  {
  }

  /**
   * The -1 does not stay harmless: two cards at 1000 px, "previous", then a
   * resize to 500 px. The page wraps -1 to the new last start index 1, while
   * the corrected model stays at 0.
   */
  lemma PagePrevThenNarrowResize(cardWidth: nat)
    ensures StepAsWritten(StepAsWritten(Init(2, 1000).value, Input(PrevClick, cardWidth)),
                          Input(WindowResize(500), cardWidth)).index == 1
    ensures Step(Step(Init(2, 1000).value, Input(PrevClick, cardWidth)),
                 Input(WindowResize(500), cardWidth)).index == 0
  {
  }

  /**
   * How long the page's -1 lasts: further "previous" clicks keep it, the
   * next forward move (a click or the auto-advance tick) brings it back to
   * 0, and a resize keeps it only while maxIndex stays -1, wrapping it to
   * the new last start index when maxIndex becomes non-negative.
   */
  lemma MinusOneUntilForward(s: State, cardWidth: nat, width: int)
    requires PageValid(s) && s.index == -1
    ensures StepAsWritten(s, Input(PrevClick, cardWidth)).index == -1
    ensures StepAsWritten(s, Input(NextClick, cardWidth)).index == 0
    ensures StepAsWritten(s, Input(AutoAdvance, cardWidth)).index == 0
    ensures s.total - ItemsPerScreen(width) >= 0 ==>
              StepAsWritten(s, Input(WindowResize(width), cardWidth)).index == s.total - ItemsPerScreen(width)
    ensures s.total - ItemsPerScreen(width) == -1 ==>
              StepAsWritten(s, Input(WindowResize(width), cardWidth)).index == -1
    ensures s.total - ItemsPerScreen(width) < -1 ==>
              StepAsWritten(s, Input(WindowResize(width), cardWidth)).index == 0
  {
  }

  /** Two cards at 1000 px: "previous" then the auto-advance tick puts the page back on 0. */
  lemma PagePrevThenTick(cardWidth: nat)
    ensures StepAsWritten(StepAsWritten(Init(2, 1000).value, Input(PrevClick, cardWidth)),
                          Input(AutoAdvance, cardWidth)).index == 0
  {
  }

  /** Away from that one case, a step of the page and of the corrected model agree. */
  lemma StepAgrees(s: State, input: Input)
    requires Valid(s)
    requires !(input.event.PrevClick? && s.index == 0 && MaxIndex(s) == -1)
    ensures StepAsWritten(s, input) == Step(s, input)
  {
  }

  /** n moves forward from index 0 land on index n while n is a valid start index. */
  lemma {:induction false} NextFromZero(s: State, cardWidth: nat, n: nat)
    requires Valid(s) && s.index == 0
    requires n <= MaxIndex(s)
    ensures NextN(s, cardWidth, n).index == n
  {
    if n > 0 {
      NextFromZero(s, cardWidth, n - 1);
    }
  }

  /**
   * Stepping forward MaxIndex + 1 times from index 0 visits every start index
   * in order and comes back to 0.
   */
  lemma NextCycles(s: State, cardWidth: nat)
    requires Valid(s) && s.index == 0 && MaxIndex(s) >= 0
    ensures NextN(s, cardWidth, MaxIndex(s) + 1).index == 0
  {
    NextFromZero(s, cardWidth, MaxIndex(s));
  }

  /** n consecutive moves to the next card. */
  function NextN(s: State, cardWidth: nat, n: nat): (r: State)
    ensures Valid(s) ==> Valid(r)
    ensures r.total == s.total && r.width == s.width
  {
    if n == 0 then s else Next(NextN(s, cardWidth, n - 1), cardWidth)
  }

  /**
   * With fewer cards than fit on one screen there are no dots and every move
   * leaves the index at 0; moving forward does so in the source too.
   */
  lemma FewCardsStayAtZero(s: State, cardWidth: nat)
    requires Valid(s) && s.total < PerScreen(s)
    ensures |s.dots| == 0 && s.index == 0
    ensures Next(s, cardWidth).index == 0 && Prev(s, cardWidth).index == 0
    ensures NormalizeAsWritten(s.index + 1, MaxIndex(s)) == 0
  {
  }

  /** Seven cards, three per screen: five dots, and next from index 4 wraps to 0. */
  lemma SevenCardsExample(cardWidth: nat)
    ensures ItemsPerScreen(1200) == 3
    ensures DotCount(7, 3) == 5
    ensures Next(State(7, 1200, 4, [false, false, false, false, true], 4 * (cardWidth + Gap)), cardWidth).index == 0
  {
  }
}

=== FILE: email.dfy ===
/**
 * The newsletter form's email shape test, the regular expression
 * ^[^\s@]+@[^\s@]+\.[^\s@]+$ written as a predicate on strings, together
 * with a one-pass scanner that decides it and the characterisations the
 * form relies on.
 */
module EmailShape {

  /**
   * The regular expression class \s: the ECMAScript WhiteSpace and
   * LineTerminator code points. The general lemmas below use only that '@'
   * and '.' are not among them; the example lemmas also use that ASCII
   * letters are not.
   */
  predicate IsSpace(c: char) {
    || c in {'\t', '\n', '\U{000B}', '\U{000C}', '\r', ' ', '\U{00A0}', '\U{1680}'}
    || ('\U{2000}' <= c <= '\U{200A}')
    || c in {'\U{2028}', '\U{2029}', '\U{202F}', '\U{205F}', '\U{3000}', '\U{FEFF}'}
  }

  /** The class [^\s@]: neither whitespace nor an at sign. */
  predicate Plain(c: char) {
    c != '@' && !IsSpace(c)
  }

  predicate AllPlain(t: string) {
    forall i :: 0 <= i < |t| ==> Plain(t[i])
  }

  /** Every character of s[lo..hi] is in [^\s@]. */
  predicate PlainRange(s: string, lo: int, hi: int)
    requires 0 <= lo <= hi <= |s|
  {
    forall i | lo <= i < hi :: Plain(s[i])
  }

  /**
   * s splits at an '@' (index a) and a later '.' (index d) into three
   * non-empty runs of [^\s@].
   */
  predicate SplitsAt(s: string, a: int, d: int)
    requires 0 < a && a + 1 < d && d + 1 < |s|
  {
    && s[a] == '@' && s[d] == '.'
    && PlainRange(s, 0, a) && PlainRange(s, a + 1, d) && PlainRange(s, d + 1, |s|)
  }

  /** The regular expression matches the whole of s. */
  predicate RegexMatch(s: string): (b: bool)
    ensures b ==> 5 <= |s| && '@' in s && '.' in s
  {
    exists a, d | 0 < a < |s| && a + 1 < d < |s| - 1 :: SplitsAt(s, a, d)
  }

  /** The domain part: no '@', no whitespace, and a '.' neither first nor last. */
  predicate DomainShape(domain: string) {
    && AllPlain(domain)
    && exists p | 1 <= p < |domain| - 1 :: domain[p] == '.'
  }

  /** s is L ++ "@" ++ D with L a non-empty run of [^\s@] and D of domain shape. */
  predicate LocalAtDomain(s: string) {
    exists a | 0 < a < |s| :: s[a] == '@' && AllPlain(s[..a]) && DomainShape(s[a + 1..])
  }

  /** The regular expression accepts exactly the local@domain shapes. */
  lemma MatchIffLocalAtDomain(s: string)
    ensures RegexMatch(s) <==> LocalAtDomain(s)
  {
    if RegexMatch(s) {
      var a, d :| 0 < a < |s| && a + 1 < d < |s| - 1 && SplitsAt(s, a, d);
      var domain := s[a + 1..];
      assert AllPlain(s[..a]);
      assert domain[d - a - 1] == '.';
      assert DomainShape(domain);
    }
    if LocalAtDomain(s) {
      var a :| 0 < a < |s| && s[a] == '@' && AllPlain(s[..a]) && DomainShape(s[a + 1..]);
      var domain := s[a + 1..];
      var p :| 1 <= p < |domain| - 1 && domain[p] == '.';
      var d := a + 1 + p;
      assert PlainRange(s, 0, a) by {
        assert forall i | 0 <= i < a :: s[i] == s[..a][i];
      }
      assert PlainRange(s, a + 1, |s|) by {
        assert forall i | a + 1 <= i < |s| :: s[i] == domain[i - a - 1];
      }
      assert SplitsAt(s, a, d);
    }
  }

  /** Index a holds the only character of s outside [^\s@], and it is an '@'. */
  predicate OnlyBadIsAt(s: string, a: int) {
    && 0 < a < |s| && s[a] == '@'
    && forall j | 0 <= j < |s| && j != a :: Plain(s[j])
  }

  /** In a matching string, the '@' is the only character outside [^\s@]. */
  lemma MatchOnlyBadIsAt(s: string)
    ensures RegexMatch(s) ==> exists a :: OnlyBadIsAt(s, a)
  {
    if RegexMatch(s) {
      var a, d :| 0 < a < |s| && a + 1 < d < |s| - 1 && SplitsAt(s, a, d);
      assert OnlyBadIsAt(s, a);
    }
  }

  /** An accepted string contains exactly one '@' and no whitespace. */
  lemma AcceptedShape(s: string)
    requires RegexMatch(s)
    ensures multiset(s)['@'] == 1
    ensures forall j :: 0 <= j < |s| ==> !IsSpace(s[j])
  {
    MatchOnlyBadIsAt(s);
    var a :| OnlyBadIsAt(s, a);
    assert s == s[..a] + [s[a]] + s[a + 1..];
    assert '@' !in s[..a];
    assert '@' !in s[a + 1..];
    assert multiset(s) == multiset(s[..a]) + multiset{'@'} + multiset(s[a + 1..]);
  }

  /** Two characters outside [^\s@] at different places rule a match out. */
  lemma TwoBadRejected(s: string, j: nat, k: nat)
    requires j < |s| && k < |s| && j != k
    requires !Plain(s[j]) && !Plain(s[k])
    ensures !RegexMatch(s)
  {
    MatchOnlyBadIsAt(s);
  }

  /** Whitespace anywhere, or an '@' in first place, rules a match out. */
  lemma BadRejected(s: string, j: nat)
    requires j < |s| && (IsSpace(s[j]) || (j == 0 && !Plain(s[0])))
    ensures !RegexMatch(s)
  {
    MatchOnlyBadIsAt(s);
  }

  /** The scanner's phases while reading the string left to right. */
  datatype Phase =
    | Start        // nothing read
    | Local        // a non-empty run of [^\s@]
    | AfterAt      // the local part and its '@'
    | Domain       // at least one domain character, no usable '.' yet
    | TrailingDot  // the last domain character is a '.' that is not the first
    | Accepting    // a '.' neither first nor last in the domain has been read
    | Rejected     // no continuation can match

  /** A '.' at an index in [lo, hi). */
  predicate DotIn(s: string, lo: int, hi: int)
    requires 0 <= lo && hi <= |s|
  {
    exists k | lo <= k < hi :: s[k] == '.'
  }

  /** What the phase says about the prefix s[..i]; at is where the '@' was read. */
  predicate PhaseHolds(s: string, i: nat, phase: Phase, at: nat)
    requires i <= |s|
  {
    match phase
    case Start => i == 0
    case Local => 0 < i && PlainRange(s, 0, i)
    case AfterAt => 0 < at && i == at + 1 && s[at] == '@' && PlainRange(s, 0, at)
    case Domain =>
      && 0 < at && at + 1 < i && s[at] == '@' && PlainRange(s, 0, at) && PlainRange(s, at + 1, i)
      && !DotIn(s, at + 2, i)
    case TrailingDot =>
      && 0 < at && at + 2 < i && s[at] == '@' && PlainRange(s, 0, at) && PlainRange(s, at + 1, i)
      && !DotIn(s, at + 2, i - 1) && s[i - 1] == '.'
    case Accepting =>
      && 0 < at && at + 1 < i && s[at] == '@' && PlainRange(s, 0, at) && PlainRange(s, at + 1, i)
      && DotIn(s, at + 2, i - 1)
    case Rejected => !RegexMatch(s)
  }

  /** The '@' read by the scanner is the only one a match can split at. */
  lemma UniqueAt(s: string, at: nat)
    requires at < |s| && PlainRange(s, 0, at) && PlainRange(s, at + 1, |s|)
    ensures forall a | 0 <= a < |s| && s[a] == '@' :: a == at
  {
  }

  /** One scanner step: the phase after reading c at index i, with the '@' at index at. */
  function Advance(phase: Phase, c: char, i: nat, at: nat): Phase {
    match phase
    case Start => if Plain(c) then Local else Rejected
    case Local => if Plain(c) then Local else if c == '@' then AfterAt else Rejected
    case AfterAt => if Plain(c) then Domain else Rejected
    case Domain => if !Plain(c) then Rejected else if c == '.' && i >= at + 2 then TrailingDot else Domain
    case TrailingDot => if Plain(c) then Accepting else Rejected
    case Accepting => if Plain(c) then Accepting else Rejected
    case Rejected => Rejected
  }

  /** A scanner step keeps the phase's description of the prefix true. */
  lemma AdvanceHolds(s: string, i: nat, phase: Phase, at: nat)
    requires i < |s| && PhaseHolds(s, i, phase, at)
    ensures PhaseHolds(s, i + 1, Advance(phase, s[i], i, if phase == Local then i else at),
                       if phase == Local then i else at)
  {
    var c := s[i];
    match phase
    case Start =>
      if !Plain(c) { BadRejected(s, 0); }
    case Local =>
      if !Plain(c) && c != '@' { BadRejected(s, i); }
    case AfterAt =>
      if !Plain(c) { TwoBadRejected(s, at, i); }
    case Domain =>
      if !Plain(c) { TwoBadRejected(s, at, i); }
    case TrailingDot =>
      if !Plain(c) { TwoBadRejected(s, at, i); }
    case Accepting =>
      if !Plain(c) { TwoBadRejected(s, at, i); }
    case Rejected =>
  }

  /** At the end of the string, the scanner accepts exactly the matching strings. */
  lemma FinalPhase(s: string, phase: Phase, at: nat)
    requires PhaseHolds(s, |s|, phase, at)
    ensures phase == Accepting <==> RegexMatch(s)
  {
    match phase
    case Accepting =>
      var d :| at + 2 <= d < |s| - 1 && s[d] == '.';
      assert SplitsAt(s, at, d);
    case Rejected =>
    case Start =>
    case Local =>
    case AfterAt =>
      UniqueAt(s, at);
    case Domain =>
      UniqueAt(s, at);
    case TrailingDot =>
      UniqueAt(s, at);
  }

  /**
   * emailRegex.test(s) in one left-to-right pass without backtracking: the
   * result is true exactly when the regular expression matches.
   */
  method Test(s: string) returns (ok: bool)
    ensures ok <==> RegexMatch(s)
  {
    var phase := Start;
    var at: nat := 0;
    var i := 0;
    while i < |s|
      invariant 0 <= i <= |s|
      invariant PhaseHolds(s, i, phase, at)
    {
      AdvanceHolds(s, i, phase, at);
      if phase == Local {
        at := i;
      }
      phase := Advance(phase, s[i], i, at);
      i := i + 1;
    }
    FinalPhase(s, phase, at);
    ok := phase == Accepting;
  }

  /** "foo@bar.com" is accepted. */
  lemma AcceptsFooAtBarDotCom()
    ensures RegexMatch("foo@bar.com")
  {
    assert SplitsAt("foo@bar.com", 3, 7);
  }

  /** "foo@bar" is rejected: its domain has no '.'. */
  lemma RejectsFooAtBar()
    ensures !RegexMatch("foo@bar")
  {
    var s := "foo@bar";
    assert forall k | 0 <= k < |s| :: s[k] != '.';
  }

  /** "a@.com" is rejected: the domain's '.' is its first character. */
  lemma RejectsDotFirstDomain()
    ensures !RegexMatch("a@.com")
  {
    var s := "a@.com";
    assert forall k | 0 <= k < |s| && k != 1 :: s[k] != '@';
    assert forall k | 3 <= k < |s| :: s[k] != '.';
  }
}

=== FILE: hero.dfy ===
/**
 * The hero slideshow: a cyclic slide counter over a fixed number of
 * full-width slides, advanced by a timer that is never stopped. The track is
 * translated left by 100 percent per slide.
 */
module HeroSlideshow {
  import opened Wrappers

  /** The slideshow's state: the slide count and the index of the slide shown. */
  datatype Hero = Hero(total: nat, index: int)

  /** The index names a slide that exists. */
  predicate InRange(h: Hero) {
    0 <= h.index < h.total
  }

  /** Page load: without slides there is no slideshow; otherwise it starts on slide 0. */
  function Init(total: nat): (r: Option<Hero>)
    ensures r.None? <==> total == 0
    ensures r.Some? ==> InRange(r.value) && r.value.index == 0 && r.value.total == total
  {
    if total == 0 then None else Some(Hero(total, 0))
  }

  /** updateHeroSlide: advance one slide, going back to the first after the last. */
  function Step(h: Hero): (r: Hero)
    ensures r.total == h.total
    ensures InRange(h) ==> InRange(r) && r.index == (h.index + 1) % h.total
  {
    var i := h.index + 1;
    if i >= h.total then h.(index := 0) else h.(index := i)
  }

  /** The track translation, in percent of the slideshow's width. */
  function Translation(h: Hero): (percent: int)
    ensures InRange(h) ==> 0 <= percent <= 100 * (h.total - 1) && percent % 100 == 0
    ensures InRange(h) ==> percent / 100 == h.index
  {
    100 * h.index
  }

  /** n timer ticks. */
  function Steps(h: Hero, n: nat): (r: Hero)
    ensures r.total == h.total
    ensures InRange(h) ==> InRange(r)
  {
    if n == 0 then h else Step(Steps(h, n - 1))
  }

  lemma MulSign(t: int, k: int)
    requires t > 0
    ensures k >= 1 ==> t * k >= t
    ensures k <= -1 ==> t * k <= -t
  {
    if k >= 1 {
      assert t * k == t + t * (k - 1);
    } else if k <= -1 {
      assert t * k == -t + t * (k + 1);
    }
  }

  /** A remainder is determined by any quotient-remainder decomposition. */
  lemma ModUnique(x: int, t: int, q: int, r: int)
    requires t > 0 && 0 <= r < t && x == t * q + r
    ensures x % t == r
  {
    var q' := x / t;
    assert x == t * q' + x % t;
    assert t * (q - q') == x % t - r;
    MulSign(t, q - q');
  }

  lemma ModSucc(a: nat, t: nat)
    requires t > 0
    ensures (a % t + 1) % t == (a + 1) % t
  {
    var q := a / t;
    var r := a % t;
    assert a == t * q + r;
    if r + 1 < t {
      ModUnique(a + 1, t, q, r + 1);
      ModUnique(r + 1, t, 0, r + 1);
    } else {
      ModUnique(a + 1, t, q + 1, 0);
      ModUnique(r + 1, t, 1, 0);
    }
  }

  /** After n ticks from slide 0 the slideshow shows slide n mod total: no skips, no repeats. */
  lemma {:induction false} StepsFromStart(total: nat, n: nat)
    requires total > 0
    ensures Steps(Hero(total, 0), n).index == n % total
  {
    if n > 0 {
      StepsFromStart(total, n - 1);
      ModSucc(n - 1, total);
    }
  }

  /** The slideshow is periodic: total more ticks show the same slide again. */
  lemma Periodic(total: nat, n: nat)
    requires total > 0
    ensures Steps(Hero(total, 0), n + total).index == Steps(Hero(total, 0), n).index
  {
    StepsFromStart(total, n);
    StepsFromStart(total, n + total);
    ModUnique(n + total, total, n / total + 1, n % total);
  }
}

=== FILE: newsletter.dfy ===
/**
 * The newsletter sign-up form's client-side state: the email field's text
 * and the isError flag. Submitting runs the email shape test and either
 * blocks the native form post (raising the error) or lets it through
 * (clearing the error); editing the field stores the new text and clears
 * the error.
 */
module Newsletter {
  import opened Wrappers
  import opened EmailShape

  /** The component's two pieces of state. */
  datatype Form = Form(email: string, isError: bool)

  /** The state when the component mounts. */
  const Initial: Form := Form("", false)

  /** The inline error text shown under the field. */
  const ErrorText: string := "有効なメールアドレスを入力してください。"

  /** The outcome of handleSubmit: the next state and whether the form post is prevented. */
  datatype Submission = Submission(form: Form, blocked: bool)

  /** handleSubmit: the post is blocked, and the error raised, exactly when the shape test fails. */
  function Submit(f: Form): (r: Submission)
    ensures r.blocked <==> !RegexMatch(f.email)
    ensures r.form.isError <==> r.blocked
    ensures r.form.email == f.email
  {
    var valid := RegexMatch(f.email);
    Submission(Form(f.email, !valid), !valid)
  }

  /** The input's change handler: store the typed text and clear any error. */
  function Edit(f: Form, value: string): (r: Form)
    ensures r.email == value
    ensures !r.isError
  {
    Form(value, false)
  }

  /** The error paragraph: rendered exactly when the error flag is set. */
  function ErrorMessage(f: Form): (r: Option<string>)
    ensures r.Some? <==> f.isError
    ensures r.Some? ==> r.value == ErrorText
  {
    if f.isError then Some(ErrorText) else None
  }

  /** Submission is blocked exactly for strings that are not of local@domain shape. */
  lemma SubmitBlocksIffNotLocalAtDomain(f: Form)
    ensures Submit(f).blocked <==> !LocalAtDomain(f.email)
    ensures ErrorMessage(Submit(f).form).Some? <==> !LocalAtDomain(f.email)
  {
    MatchIffLocalAtDomain(f.email);
  }

  /** Submitting again without editing changes nothing. */
  lemma SubmitIdempotent(f: Form)
    ensures Submit(Submit(f).form) == Submit(f)
  {
  }

  /** Whatever the state, editing hides the error message. */
  lemma EditHidesError(f: Form, value: string)
    ensures ErrorMessage(Edit(f, value)).None?
    ensures Edit(f, value).email == value
  {
  }

  /** The user's actions on the form. */
  datatype Action = Type(value: string) | Press

  /** The state an action leads to. */
  function Apply(f: Form, action: Action): (r: Form)
    ensures r.isError ==> !RegexMatch(r.email)
  {
    match action
    case Type(v) => Edit(f, v)
    case Press => Submit(f).form
  }

  /** The error flag is never set on an address of the accepted shape. */
  predicate Sound(f: Form) {
    f.isError ==> !RegexMatch(f.email)
  }

  /** Replay a sequence of actions. */
  function Replay(f: Form, actions: seq<Action>): (r: Form)
    ensures Sound(f) ==> Sound(r)
    ensures |actions| > 0 && actions[|actions| - 1].Press? ==> (r.isError <==> !RegexMatch(r.email))
    decreases |actions|
  {
    if |actions| == 0 then f
    else Apply(Replay(f, actions[..|actions| - 1]), actions[|actions| - 1])
  }

  /** From mount, whatever the user does, an error is only ever shown for a rejected address. */
  lemma ErrorOnlyForRejected(actions: seq<Action>)
    ensures ErrorMessage(Replay(Initial, actions)).Some? ==> !RegexMatch(Replay(Initial, actions).email)
  {
  }

  /** "foo@bar" and "a@.com" block submission; "foo@bar.com" goes through and clears the error. */
  lemma SubmitExamples()
    ensures Submit(Form("foo@bar", false)).blocked
    ensures Submit(Form("a@.com", false)).blocked
    ensures !Submit(Form("foo@bar.com", true)).blocked
    ensures !Submit(Form("foo@bar.com", true)).form.isError
  {
    RejectsFooAtBar();
    RejectsDotFirstDomain();
    AcceptsFooAtBarDotCom();
  }
}

=== FILE: wrappers.dfy ===
/** Small optional-value datatype shared by the carousel, hero and newsletter models. */
module Wrappers {

  /** A value that may be absent: a controller that was never set up, a message not rendered. */
  datatype Option<+T> = None | Some(value: T)
}
